=== FILE: README.md ===
# URL shortener core, modelled in Dafny

This project models the core of an Express and Prisma URL-shortening service.
The service takes a long URL, an owner email and a secret, and issues a
10-character short code. Visitors who open the short code are redirected to the
original URL, and each visit adds one to the link's click count. Owners can
check their secret against a link, and anyone can edit, delete or read a link.

The model has three parts:

- **Short-code generator** (`Generator`, src/core/shortener.ts). The 13-symbol
  alphabet `abcdef123XYZ_`, the code length 10, and `generateShortcode`. The
  generator is a function of an oracle: the ten alphabet positions the random
  source draws.
- **Request validation** (`Schema`, src/schema/index.ts). The URL refine of
  `createURLSchema` (protocol, hostname and port), the `customCode` refine, the
  six-character minimum on `secret`, and `validateOwnerSchema`, all as
  predicates. The refine callbacks return `Option<bool>`, where `None` stands
  for the callback falling off its end and yielding `undefined`. JavaScript's
  `split(".")` and `endsWith` are modelled as well. `split` comes with its
  round trip against a join.
- **Link table and handlers** (`LinkStore`, `Routes`,
  src/routes/shortener.routes.ts). The `shortenURL` table is the field
  `links: seq<Link>` of the class `Routes.Shortener`. The four handlers that
  write to the table are methods: create, edit (`PUT /:code`), delete and
  redirect. The three read-only handlers are functions of the class:
  availability, validate owner and `GET /:code`. Each handler's contract gives
  its guards in the order the source checks them, with the status code of each.
  On every error path the table is unchanged. On success the contract states
  exactly which record or field changed. Lookups return the first matching
  record, which is Prisma's `findFirst`. `LinkStore.FindFirstIsOnlyMatch` shows
  that this is also `findUnique` when codes are unique. The source calls
  `findFirst` with no ordering and uses its result only as an existence test,
  so taking the first record in table order is the model's choice.

`Scenarios` verifies request sequences against the contracts of the writing handlers and the definitions of the read-only ones:

- create, then availability, then redirect, then get, ending with one click;
- a generated code that collides with an existing code;
- an edit that moves one link onto another link's URL.

Inputs that come from outside the core are parameters:

- `RequestContext` holds `req.protocol`, `req.host` and `req.baseUrl`.
- `ParsedURL` holds what the WHATWG URL parser made of `url`. `None` means the
  parser threw.
- `emailWellFormed` is the verdict of zod's email check.
- `draws` is nanoid's random output.
- `storeFault` says whether the database throws on this request.

Behaviour of the handlers and schemas worth knowing, modelled as the code has it:

- The availability guard `code.length < 10 && code.length > 10` can never hold,
  so only the empty code gets 400; codes of any other length are looked up.
- `validateOwnerSchema` accepts the empty secret.
- The URL refine tests the label after the *first* dot, not the top-level label
  (`Schema.ShortLastLabelAccepted`, `Schema.ShortMiddleLabelRejected`).
- A generated code is never checked against existing codes.
- Edit checks neither the secret nor whether the new URL is already used, and it
  validates `customCode` but ignores it.
- The listing handler has only `page` and `limit`. It has no cursor and no
  `forward` mode.

## Model

| member | source | states |
|---|---|---|
| Generator.GenerateShortcode | src/core/shortener.ts:4-9 | takes only the oracle's drawing, cannot fail, and returns a string of length 10 whose every character is in `ALPHABET` |
| Generator.AlphabetIsDistinct | src/core/shortener.ts:4 | `ALPHABET` has 13 pairwise distinct characters |
| Generator.EveryShortCodeIsGenerated | src/core/shortener.ts:6-9 | every 10-character string over the alphabet is the output for some drawing |
| Generator.GenerationIsInjective | src/core/shortener.ts:7-8 | two drawings that give the same code are the same drawing |
| Schema.Split | src/schema/index.ts:16 | `split` returns at least one piece; it returns two or more exactly when the separator occurs; no piece contains the separator |
| Schema.JoinSplit | src/schema/index.ts:16 | joining the pieces of `split` with the separator gives back the original string |
| Schema.SplitJoin | src/schema/index.ts:16 | splitting a join of separator-free pieces gives back those pieces |
| Schema.SplitWithoutSeparator | src/schema/index.ts:16 | a string without the separator splits into itself alone |
| Schema.SplitAtFirst | src/schema/index.ts:16 | the first piece is everything before the first separator, and the rest is the split of what follows it |
| Schema.LabelAfterFirstDot | src/schema/index.ts:16 | `hostname.split(".")[1]` exists when the hostname has a dot, and contains no dot |
| Schema.LabelAfterFirstDotIs | src/schema/index.ts:16 | for `first.middle` followed by nothing or by `.rest`, with no dot in `first` or `middle`, the piece is `middle` |
| Schema.UrlRefine | src/schema/index.ts:8-29 | the callback returns false exactly when the URL constructor throws, and undefined exactly when it parsed but the condition fails |
| Schema.UrlAcceptedIsCondition | src/schema/index.ts:8-29 | the URL is accepted exactly when it parses and the combined condition holds |
| Schema.AcceptedUrlIsWeb | src/schema/index.ts:22 | an accepted URL has protocol `http:` or `https:` |
| Schema.DomainHostRule | src/schema/index.ts:14-22 | a non-loopback host is accepted exactly when the protocol is web, the hostname has a dot, does not end with one, and the label after the first dot has at least 2 characters |
| Schema.LoopbackHostRule | src/schema/index.ts:17-21 | `localhost`, `127.0.0.1` and `::1` are accepted exactly with a web protocol and a non-empty port; the `endsWith(":")` test never rejects them |
| Schema.NameDotTopLevelAccepted | src/schema/index.ts:14-16 | `name.tld` with a top-level label of 2 or more characters is accepted over http and https |
| Schema.ShortLastLabelAccepted | src/schema/index.ts:16 | `https://www.example.c` is accepted although its last label has one character |
| Schema.ShortMiddleLabelRejected | src/schema/index.ts:16 | `https://a.b.com` is rejected although its last label has three characters |
| Schema.CustomCodeRefine | src/schema/index.ts:36-45 | the `customCode` callback never yields undefined, and is true exactly for length 0 or 10 |
| Schema.CreateAcceptsExactly | src/schema/index.ts:4-47 | the create and update schema accepts exactly: a parsed URL meeting the condition, a well-formed email, `customCode` absent or of length 0 or 10, and a secret of at least 6 characters |
| Schema.OwnerAcceptsAnyString | src/schema/index.ts:49-51 | the owner schema accepts every string secret, the empty one included |
| Schema.EndsWith | src/schema/index.ts:15-20 | `s.endsWith(c)` for a one-character suffix: the string is non-empty and its last character is `c` |
| Schema.UrlCondition | src/schema/index.ts:13-22 | the `if` condition of the URL refine: domain branch or loopback branch with a non-empty port, and a web protocol |
| Schema.CreateAccepts | src/schema/index.ts:4-47 | `createURLSchema.safeParse(body).success`: a well-shaped body whose URL, email, optional `customCode` and secret all pass |
| Schema.SecretAccepted | src/schema/index.ts:46 | `z.string().min(6)`: the secret has at least 6 characters |
| Schema.OwnerAccepts | src/schema/index.ts:49-51 | `validateOwnerSchema.safeParse(body).success`: the body has a string `secret` |
| Routes.IsGiven | src/routes/shortener.routes.ts:27-37 | JavaScript truthiness of `customCode`: present and non-empty |
| LinkStore.FindFirst | src/routes/shortener.routes.ts:19-21 | returns None exactly when no record has the value, and otherwise the position of the first record that has it |
| LinkStore.FindFirstIsOnlyMatch | src/routes/shortener.routes.ts:130-134 | on a column without duplicates, a position is the first match exactly when its record matches, so `findFirst` agrees with `findUnique` |
| LinkStore.Removed | src/routes/shortener.routes.ts:215-217 | removing position `i` keeps every other record in order and shortens the table by one |
| LinkStore.AppendFreshKeepsUnique | src/routes/shortener.routes.ts:19-52 | adding a record whose value is not yet used keeps that column free of duplicates |
| LinkStore.AppendTakenBreaksUnique | src/routes/shortener.routes.ts:36-38 | adding a record whose value is already used leaves a duplicate |
| LinkStore.RemovedKeepsUnique | src/routes/shortener.routes.ts:215-217 | deleting a record keeps a duplicate-free column duplicate-free |
| LinkStore.RemovedFreesKey | src/routes/shortener.routes.ts:215-217 | with unique codes, no record has the deleted record's code afterwards |
| LinkStore.ReplacedKeepsUnique | src/routes/shortener.routes.ts:177-184 | overwriting a record without changing its value in a column keeps that column duplicate-free |
| Routes.ChosenCode | src/routes/shortener.routes.ts:36-41 | the new code is the custom code when one is given (non-empty), and the generated code otherwise |
| Routes.EmptyCustomCodeIsAbsent | src/routes/shortener.routes.ts:27-41 | an empty custom code picks the generated code, as no custom code does |
| Routes.ShortenURL | src/routes/shortener.routes.ts:42 | the stored address is `protocol://host baseUrl/__redirect/` followed by the code |
| Routes.Shortener.Create | src/routes/shortener.routes.ts:11-60 | checks, in order: invalid body → 400, store failure → 500, URL already stored → 409, non-empty custom code already used → 403; every error leaves the table unchanged; success gives 201 and appends exactly one record with the chosen code, the body's URL, email and secret, 0 clicks and the computed short URL; a custom code keeps codes unique and URL uniqueness is kept |
| Routes.Shortener.Availability | src/routes/shortener.routes.ts:62-87 | 400 exactly for the empty code; otherwise 500 on a store failure, or 202 with `isAvailable` equal to "no record has this code"; reads the table only |
| Routes.Shortener.ValidateOwner | src/routes/shortener.routes.ts:115-150 | in order: code shorter than 10 → 400, body without a string secret → 401, store failure → 500, no record → 404, stored secret differs → 401, else 202; with unique codes, 202 exactly when a record with the code has the given secret |
| Routes.Shortener.Edit | src/routes/shortener.routes.ts:152-193 | in order: code shorter than 10 → 400, invalid body → 400, store failure → 500, no record → 404, else 202; errors leave the table unchanged; success overwrites only `ownerEmail`, `originalURL` and `secret` of the matching record, whatever its stored secret, and keeps codes unique |
| Routes.Shortener.Delete | src/routes/shortener.routes.ts:196-226 | in order: code shorter than 10 → 400, store failure → 500, no record → 404, else 202 and exactly the matching record is removed; both uniqueness properties are kept, and with unique codes the code is then free |
| Routes.Shortener.Get | src/routes/shortener.routes.ts:228-254 | in order: code shorter than 10 → 400, store failure → 500, no record → 404, else 202 with a record that has the code, the only one when codes are unique; reads the table only |
| Routes.Shortener.Redirect | src/routes/shortener.routes.ts:257-290 | in order: code shorter than 10 → 400, store failure → 500, no record → 404, else 302 to the record's stored `originalURL`; that record's clicks grow by exactly 1 and nothing else changes |
| Scenarios.LinkLifecycle | src/routes/shortener.routes.ts:11-283 | create without a custom code gives 201 and the generated code; availability then says taken; redirect goes to the original URL; get then returns the record with the body's URL, email and secret and 1 click |
| Scenarios.CreateThenGet | src/routes/shortener.routes.ts:36-247 | on any table with unique codes, a 201 from create with a fresh code followed by get of that code gives 202 and the stored record: the chosen code, the body's URL, email and secret, and 0 clicks |
| Scenarios.GeneratedCodeCollides | src/routes/shortener.routes.ts:36-52 | the handler never looks up a generated code: when the oracle repeats an existing custom code, the handler's own guards pass, and in the constraint-free table both creates give 201 and two records share one code |
| Scenarios.EditDuplicatesURL | src/routes/shortener.routes.ts:167-184 | an edit with any secret that points one link at another link's URL gives 202 and leaves two records with one URL |

## Left out

- The `/all` listing (src/routes/shortener.routes.ts:90-113) is not modelled. It computes `skip` from `parseInt` of raw query strings, which can be NaN. It also relies on Prisma's `skip` and `take` with no ordering.
- The store-generated `id` column is not modelled. It reaches clients in the 201 body of create (src/routes/shortener.routes.ts:54), in the 202 body of get (src/routes/shortener.routes.ts:247) and in the listing; the modelled replies leave it out of the record.
- The Prisma client and the database are replaced by the `links` sequence. Unique constraints are not modelled. A constraint violation on write and any other database error are covered together by `storeFault`: the handler answers 500 and the table is unchanged.
- Some guards come before the first store call. A `storeFault` never overrides them.
- Failures of individual store calls are not told apart. This does not change the set of possible outcomes.
- The WHATWG URL parser, `z.url()` and `z.email()` are foreign code. Their results are inputs (`ParsedURL`, `emailWellFormed`). The parser writes the IPv6 loopback as `[::1]`, so the `::1` branch may never match in practice.
- nanoid's randomness and its rejection sampling are not modelled. The oracle supplies ten alphabet positions directly.
- The app wiring in src/index.ts is not modelled: `PORT`, CORS, JSON body parsing and `listen`.
- The bundled outputs under dist/ are not modelled. They follow an older schema.
- Concurrency is not modelled. Each handler runs as one atomic step, so the check-then-act races between requests are out of scope.
- The JSON message texts and logging are not modelled. Express's redirect response is reduced to its status, 302, and its target.
- String lengths are counted as sequence lengths. JavaScript counts UTF-16 code units, so the two can differ for characters outside the Basic Multilingual Plane.
- Scenarios.GeneratedCodeCollides: the second 201 is reachable only because the table does not model the store's unique constraint on `shortCode`, which the handlers' `findUnique`, `update` and `delete` by `shortCode` rely on; the real store throws on that insert and the handler answers 500. Whether `originalURL` is unique in the store is not visible in the handlers, so the same caveat may apply to Scenarios.EditDuplicatesURL.
- Routes.Shortener.Redirect: `clicks` is an unbounded natural number. Neither the 2^53 limit of JavaScript numbers, above which `clicks + 1` stops changing the value, nor the range of the store's column is modelled. At the column's maximum the real update throws and the handler answers 500, where the model answers 302 with `clicks + 1`.
- Routes.Shortener.Get: if the table holds two records with the same code, the contract says only that some record with that code is returned. It does not say that it is the first one. The database's uniqueness of `shortCode` rules out that case.

=== FILE: generator.dfy ===
/** Short-code generation (src/core/shortener.ts).

    `generateShortcode` asks nanoid for a 10-character string over a fixed alphabet.
    The random source is modelled as an oracle: the sequence of positions
    into the alphabet that it draws for one code. */
module Generator {

  /** The 13 symbols a generated code is made of. */
  const Alphabet: string := "abcdef123XYZ_"

  /** Every generated code has exactly this many characters. */
  const CodeLength: nat := 10

  /** What the random source supplies for one code. */
  predicate IsDrawing(draws: seq<nat>)
  {
    |draws| == CodeLength && forall i :: 0 <= i < |draws| ==> draws[i] < |Alphabet|
  }

  /** A string of the shape the generator produces. */
  predicate IsShortCode(s: string)
  {
    |s| == CodeLength && forall i :: 0 <= i < |s| ==> s[i] in Alphabet
  }

  /** `generateShortcode()`: takes no request input and cannot fail; its only
      input is the oracle's drawing. */
  function GenerateShortcode(draws: seq<nat>): (code: string)
    requires IsDrawing(draws)
    ensures IsShortCode(code)
  {
    seq(CodeLength, i requires 0 <= i < CodeLength => Alphabet[draws[i]])
  }

  /** The alphabet has 13 pairwise distinct symbols. */
  lemma AlphabetIsDistinct()
    ensures |Alphabet| == 13
    ensures forall i, j :: 0 <= i < j < |Alphabet| ==> Alphabet[i] != Alphabet[j]
  {
  }

  /** The first position of `c` in `s`. */
  function PositionIn(s: string, c: char): (k: nat)
    requires c in s
    ensures k < |s| && s[k] == c
    ensures forall j :: 0 <= j < k ==> s[j] != c
  {
    if s[0] == c then 0 else 1 + PositionIn(s[1..], c)
  }

  /** The drawing that spells out a given code: the inverse of generation. */
  function DrawingOf(code: string): (draws: seq<nat>)
    requires IsShortCode(code)
    ensures IsDrawing(draws)
    ensures forall i :: 0 <= i < |code| ==> Alphabet[draws[i]] == code[i]
  {
    seq(|code|, i requires 0 <= i < |code| => PositionIn(Alphabet, code[i]))
  }

  /** Every string of the right shape is a possible generated code. */
  lemma EveryShortCodeIsGenerated(code: string)
    requires IsShortCode(code)
    ensures GenerateShortcode(DrawingOf(code)) == code
  {
  }

  /** Distinct drawings give distinct codes, so the generator loses none of
      the 13^10 outcomes of its random source. */
  lemma GenerationIsInjective(d1: seq<nat>, d2: seq<nat>)
    requires IsDrawing(d1) && IsDrawing(d2)
    requires GenerateShortcode(d1) == GenerateShortcode(d2)
    ensures d1 == d2
  {
    AlphabetIsDistinct();
    forall i | 0 <= i < CodeLength
      ensures d1[i] == d2[i]
    {
      assert GenerateShortcode(d1)[i] == Alphabet[d1[i]];
      assert GenerateShortcode(d2)[i] == Alphabet[d2[i]];
    }
  }
}

=== FILE: link_store.dfy ===
/** The persisted `shortenURL` table, as a sequence of records, and the
    store queries the route handlers issue against it
    (src/routes/shortener.routes.ts). */
module LinkStore {
  import opened Wrappers

  /** One row of the table. The store-generated `id` is not modelled. */
  datatype Link = Link(
    shortCode: string,
    originalURL: string,
    shortenURL: string,
    ownerEmail: string,
    secret: string,
    clicks: nat)

  /** The two columns the handlers look records up by. */
  datatype Column = ShortCode | OriginalURL

  function Key(l: Link, c: Column): (value: string)
  {
    match c
    case ShortCode => l.shortCode
    case OriginalURL => l.originalURL
  }

  /** Some record has `value` in column `c`. */
  predicate Taken(links: seq<Link>, c: Column, value: string)
  {
    exists j | 0 <= j < |links| :: Key(links[j], c) == value
  }

  /** No two records share a value in column `c`. */
  predicate Unique(links: seq<Link>, c: Column)
  {
    forall i, j :: 0 <= i < j < |links| ==> Key(links[i], c) != Key(links[j], c)
  }

  /** `findFirst({ where: { c: value } })`: the position of the first
      matching record, None when there is none. */
  function FindFirst(links: seq<Link>, c: Column, value: string): (r: Option<nat>)
    ensures r.None? <==> !Taken(links, c, value)
    ensures r.Some? ==> r.value < |links| && Key(links[r.value], c) == value
    ensures r.Some? ==> forall j :: 0 <= j < r.value ==> Key(links[j], c) != value
  {
    if links == [] then None
    else if Key(links[0], c) == value then Some(0)
    else
      match FindFirst(links[1..], c, value)
      case None => None
      case Some(k) => Some(k + 1)
  }

  /** On a column without duplicates the first match is the only match,
      so `findFirst` and `findUnique` agree. */
  lemma FindFirstIsOnlyMatch(links: seq<Link>, c: Column, value: string, i: nat)
    requires Unique(links, c) && i < |links|
    ensures FindFirst(links, c, value) == Some(i) <==> Key(links[i], c) == value
  {
  }

  /** The table without the record at position `i`. */
  function Removed(links: seq<Link>, i: nat): (r: seq<Link>)
    requires i < |links|
    ensures |r| == |links| - 1
    ensures forall j :: 0 <= j < i ==> r[j] == links[j]
    ensures forall j :: i <= j < |r| ==> r[j] == links[j + 1]
  {
    links[..i] + links[i + 1..]
  }

  /** Adding a record with a fresh value keeps the column unique. */
  lemma AppendFreshKeepsUnique(links: seq<Link>, l: Link, c: Column)
    requires Unique(links, c) && !Taken(links, c, Key(l, c))
    ensures Unique(links + [l], c)
  {
  }

  /** Adding a record whose value is already taken duplicates it. */
  lemma AppendTakenBreaksUnique(links: seq<Link>, l: Link, c: Column)
    requires Taken(links, c, Key(l, c))
    ensures !Unique(links + [l], c)
  {
    var j :| 0 <= j < |links| && Key(links[j], c) == Key(l, c);
    var t := links + [l];
    assert t[j] == links[j] && t[|links|] == l;
  }

  /** Removing a record keeps a column unique. */
  lemma RemovedKeepsUnique(links: seq<Link>, i: nat, c: Column)
    requires i < |links| && Unique(links, c)
    ensures Unique(Removed(links, i), c)
  {
  }

  /** When codes are unique, removing the record with a code leaves no
      record with that code. */
  lemma RemovedFreesKey(links: seq<Link>, i: nat, c: Column)
    requires i < |links| && Unique(links, c)
    ensures !Taken(Removed(links, i), c, Key(links[i], c))
  {
  }

  /** Overwriting a record without changing its value in column `c` keeps
      that column unique. */
  lemma ReplacedKeepsUnique(links: seq<Link>, i: nat, l: Link, c: Column)
    requires i < |links| && Unique(links, c)
    requires Key(l, c) == Key(links[i], c)
    ensures Unique(links[i := l], c)
  {
  }
}

=== FILE: routes.dfy ===
/** The route handlers of src/routes/shortener.routes.ts, as methods and
    functions of a class that holds the `shortenURL` table.

    Every handler is a chain of guards that return early, followed by at
    most one change to the table. A store that throws (a lost connection,
    a unique-constraint violation) is modelled by the flag `storeFault`:
    the handler reaches its `catch` at its first store call, answers 500
    and leaves the table as it was. */
module Routes {
  import opened Wrappers
  import opened Generator
  import opened Schema
  import opened LinkStore

  // Status codes, as the handlers take them from http-status-codes.
  const CREATED: int := 201
  const ACCEPTED: int := 202
  const FOUND: int := 302
  const BAD_REQUEST: int := 400
  const UNAUTHORIZED: int := 401
  const FORBIDDEN: int := 403
  const NOT_FOUND: int := 404
  const CONFLICT: int := 409
  const INTERNAL_SERVER_ERROR: int := 500

  /** The shortest `:code` the code-keyed handlers take. */
  const MinCodeLength: nat := 10

  /** A JSON answer: its status and, when there is one, its payload. */
  datatype Reply<T> = Reply(status: int, data: Option<T>)

  /** The parts of the incoming request the create handler reads:
      `req.protocol`, `req.host` and `req.baseUrl`. */
  datatype RequestContext = RequestContext(protocol: string, host: string, baseUrl: string)

  /** `if (data.customCode)`: an absent and an empty custom code are both
      falsy. */
  predicate IsGiven(customCode: Option<string>)
  {
    customCode.Some? && customCode.value != ""
  }

  /** The code a new record gets: the custom code when one is given,
      otherwise the generated one. */
  function ChosenCode(customCode: Option<string>, generated: string): (code: string)
    ensures IsGiven(customCode) ==> code == customCode.value
    ensures !IsGiven(customCode) ==> code == generated
  {
    if !IsGiven(customCode) then generated else customCode.value
  }

  /** An empty custom code is the same as none: the generated code is used. */
  lemma EmptyCustomCodeIsAbsent(generated: string)
    ensures ChosenCode(Some(""), generated) == ChosenCode(None, generated) == generated
  {
  }

  /** The stored redirect address `${protocol}://${host}${baseUrl}/__redirect/${code}`. */
  function ShortenURL(req: RequestContext, code: string): (url: string)
    ensures |url| >= |code|
    ensures url[|url| - |code|..] == code
    ensures url[..|url| - |code|] == req.protocol + "://" + req.host + req.baseUrl + "/__redirect/"
  {
    req.protocol + "://" + req.host + req.baseUrl + "/__redirect/" + code
  }

  class Shortener {
    /** The rows of the `shortenURL` table. */
    var links: seq<Link>

    constructor ()
      ensures links == []
    {
      links := [];
    }

    /** POST /create */
    method Create(body: Option<CreateFields>, req: RequestContext, draws: seq<nat>, storeFault: bool)
      returns (status: int, created: Option<Link>)
      requires IsDrawing(draws)
      modifies this
      // the guards, in order
      ensures !CreateAccepts(body) ==> status == BAD_REQUEST
      ensures CreateAccepts(body) && storeFault ==> status == INTERNAL_SERVER_ERROR
      ensures CreateAccepts(body) && !storeFault && Taken(old(links), OriginalURL, body.value.url)
        ==> status == CONFLICT
      ensures CreateAccepts(body) && !storeFault && !Taken(old(links), OriginalURL, body.value.url)
           && IsGiven(body.value.customCode) && Taken(old(links), ShortCode, body.value.customCode.value)
        ==> status == FORBIDDEN
      ensures status == CREATED <==>
        && CreateAccepts(body) && !storeFault
        && !Taken(old(links), OriginalURL, body.value.url)
        && !(IsGiven(body.value.customCode) && Taken(old(links), ShortCode, body.value.customCode.value))
      // every error leaves the table alone
      ensures status != CREATED ==> created == None && links == old(links)
      // success adds exactly one record
      ensures status == CREATED ==>
        && created.Some?
        && links == old(links) + [created.value]
        && created.value.shortCode == ChosenCode(body.value.customCode, GenerateShortcode(draws))
        && created.value.originalURL == body.value.url
        && created.value.ownerEmail == body.value.email
        && created.value.secret == body.value.secret
        && created.value.clicks == 0
        && created.value.shortenURL == ShortenURL(req, created.value.shortCode)
      // a custom code keeps codes unique; a generated one is never checked
      ensures status == CREATED && IsGiven(body.value.customCode) && Unique(old(links), ShortCode)
        ==> Unique(links, ShortCode)
      ensures status == CREATED && Unique(old(links), OriginalURL) ==> Unique(links, OriginalURL)
    {
      if !CreateAccepts(body) {
        return BAD_REQUEST, None;
      }
      var data := body.value;
      if storeFault {
        return INTERNAL_SERVER_ERROR, None;
      }
      var sameURL := FindFirst(links, OriginalURL, data.url);
      if sameURL.Some? {
        return CONFLICT, None;
      }
      if IsGiven(data.customCode) {
        var sameCode := FindFirst(links, ShortCode, data.customCode.value);
        if sameCode.Some? {
          return FORBIDDEN, None;
        }
      }
      var code: string := "";
      if !IsGiven(data.customCode) {
        code := GenerateShortcode(draws);
      } else {
        code := data.customCode.value;
      }
      var record := Link(code, data.url, ShortenURL(req, code), data.email, data.secret, 0);
      if Unique(links, OriginalURL) {
        AppendFreshKeepsUnique(links, record, OriginalURL);
      }
      if IsGiven(data.customCode) && Unique(links, ShortCode) {
        AppendFreshKeepsUnique(links, record, ShortCode);
      }
      links := links + [record];
      return CREATED, Some(record);
    }

    /** GET /availability/:code. The length test `< 10 && > 10` can never
        hold, so only an empty code is rejected. */
    function Availability(code: string, storeFault: bool): (r: Reply<bool>)
      reads this
      ensures r.status == BAD_REQUEST <==> code == []
      ensures code != [] && storeFault ==> r == Reply(INTERNAL_SERVER_ERROR, None)
      ensures code != [] && !storeFault ==> r == Reply(ACCEPTED, Some(!Taken(links, ShortCode, code)))
    {
      if code == "" || (|code| < MinCodeLength && |code| > MinCodeLength) then
        Reply(BAD_REQUEST, None)
      else if storeFault then
        Reply(INTERNAL_SERVER_ERROR, None)
      else if FindFirst(links, ShortCode, code).Some? then
        Reply(ACCEPTED, Some(false))
      else
        Reply(ACCEPTED, Some(true))
    }

    /** POST /validate/:code/owner, whose body's `secret` is `secret`. */
    function ValidateOwner(code: string, secret: Option<string>, storeFault: bool): (status: int)
      reads this
      ensures |code| < MinCodeLength ==> status == BAD_REQUEST
      ensures |code| >= MinCodeLength && !OwnerAccepts(secret) ==> status == UNAUTHORIZED
      ensures |code| >= MinCodeLength && OwnerAccepts(secret) && storeFault
        ==> status == INTERNAL_SERVER_ERROR
      ensures |code| >= MinCodeLength && OwnerAccepts(secret) && !storeFault && !Taken(links, ShortCode, code)
        ==> status == NOT_FOUND
      ensures |code| >= MinCodeLength && OwnerAccepts(secret) && !storeFault
           && FindFirst(links, ShortCode, code).Some?
        ==> (status == ACCEPTED <==> links[FindFirst(links, ShortCode, code).value].secret == secret.value)
      ensures |code| >= MinCodeLength && OwnerAccepts(secret) && !storeFault
           && FindFirst(links, ShortCode, code).Some?
           && links[FindFirst(links, ShortCode, code).value].secret != secret.value
        ==> status == UNAUTHORIZED
      ensures status == ACCEPTED ==>
        && FindFirst(links, ShortCode, code).Some?
        && links[FindFirst(links, ShortCode, code).value].secret == secret.value
      ensures Unique(links, ShortCode) ==>
        (status == ACCEPTED <==>
          && |code| >= MinCodeLength && OwnerAccepts(secret) && !storeFault
          && exists j :: 0 <= j < |links| && links[j].shortCode == code && links[j].secret == secret.value)
      ensures status in {BAD_REQUEST, UNAUTHORIZED, INTERNAL_SERVER_ERROR, NOT_FOUND, ACCEPTED}
    {
      if code == "" || |code| < MinCodeLength then BAD_REQUEST
      else if !OwnerAccepts(secret) then UNAUTHORIZED
      else if storeFault then INTERNAL_SERVER_ERROR
      else
        match FindFirst(links, ShortCode, code)
        case None => NOT_FOUND
        case Some(i) =>
          if links[i].secret != secret.value then UNAUTHORIZED
          else
            assert forall j :: (0 <= j < |links| && links[j].shortCode == code && Unique(links, ShortCode) ==> j == i) by {
              forall j | 0 <= j < |links| && links[j].shortCode == code && Unique(links, ShortCode)
                ensures j == i
              {
                FindFirstIsOnlyMatch(links, ShortCode, code, j);
              }
            }
            ACCEPTED
    }

    /** GET /:code */
    function Get(code: string, storeFault: bool): (r: Reply<Link>)
      reads this
      ensures |code| < MinCodeLength ==> r == Reply(BAD_REQUEST, None)
      ensures |code| >= MinCodeLength && storeFault ==> r == Reply(INTERNAL_SERVER_ERROR, None)
      ensures |code| >= MinCodeLength && !storeFault && !Taken(links, ShortCode, code)
        ==> r == Reply(NOT_FOUND, None)
      ensures r.status == ACCEPTED <==> |code| >= MinCodeLength && !storeFault && Taken(links, ShortCode, code)
      ensures r.status == ACCEPTED ==> r.data.Some? && r.data.value in links && r.data.value.shortCode == code
      ensures Unique(links, ShortCode) && r.status == ACCEPTED ==>
        forall j :: 0 <= j < |links| && links[j].shortCode == code ==> r.data == Some(links[j])
    {
      if code == "" || |code| < MinCodeLength then Reply(BAD_REQUEST, None)
      else if storeFault then Reply(INTERNAL_SERVER_ERROR, None)
      else
        match FindFirst(links, ShortCode, code)
        case None => Reply(NOT_FOUND, None)
        case Some(i) =>
          assert forall j :: (0 <= j < |links| && links[j].shortCode == code && Unique(links, ShortCode) ==> j == i) by {
            forall j | 0 <= j < |links| && links[j].shortCode == code && Unique(links, ShortCode)
              ensures j == i
            {
              FindFirstIsOnlyMatch(links, ShortCode, code, j);
            }
          }
          Reply(ACCEPTED, Some(links[i]))
    }

    /** PUT /:code. The stored secret is not checked, the new URL is not
        checked for uniqueness, and `customCode` is validated but ignored. */
    method Edit(code: string, body: Option<CreateFields>, storeFault: bool) returns (status: int)
      modifies this
      ensures |code| < MinCodeLength ==> status == BAD_REQUEST
      ensures |code| >= MinCodeLength && !CreateAccepts(body) ==> status == BAD_REQUEST
      ensures |code| >= MinCodeLength && CreateAccepts(body) && storeFault ==> status == INTERNAL_SERVER_ERROR
      ensures |code| >= MinCodeLength && CreateAccepts(body) && !storeFault
           && !Taken(old(links), ShortCode, code)
        ==> status == NOT_FOUND
      ensures status == ACCEPTED <==>
        |code| >= MinCodeLength && CreateAccepts(body) && !storeFault && Taken(old(links), ShortCode, code)
      ensures status != ACCEPTED ==> links == old(links)
      ensures status == ACCEPTED ==>
        && FindFirst(old(links), ShortCode, code).Some?
        && var i := FindFirst(old(links), ShortCode, code).value;
        && |links| == |old(links)|
        && (forall j :: 0 <= j < |links| && j != i ==> links[j] == old(links)[j])
        && links[i].ownerEmail == body.value.email
        && links[i].originalURL == body.value.url
        && links[i].secret == body.value.secret
        && links[i].shortCode == old(links)[i].shortCode
        && links[i].shortenURL == old(links)[i].shortenURL
        && links[i].clicks == old(links)[i].clicks
      ensures Unique(old(links), ShortCode) ==> Unique(links, ShortCode)
    {
      if code == "" || |code| < MinCodeLength {
        return BAD_REQUEST;
      }
      if !CreateAccepts(body) {
        return BAD_REQUEST;
      }
      var data := body.value;
      if storeFault {
        return INTERNAL_SERVER_ERROR;
      }
      var found := FindFirst(links, ShortCode, code);
      if found.None? {
        return NOT_FOUND;
      }
      var i := found.value;
      var edited := links[i].(ownerEmail := data.email, originalURL := data.url, secret := data.secret);
      if Unique(links, ShortCode) {
        ReplacedKeepsUnique(links, i, edited, ShortCode);
      }
      links := links[i := edited];
      return ACCEPTED;
    }

    /** DELETE /:code */
    method Delete(code: string, storeFault: bool) returns (status: int)
      modifies this
      ensures |code| < MinCodeLength ==> status == BAD_REQUEST
      ensures |code| >= MinCodeLength && storeFault ==> status == INTERNAL_SERVER_ERROR
      ensures |code| >= MinCodeLength && !storeFault && !Taken(old(links), ShortCode, code)
        ==> status == NOT_FOUND
      ensures status == ACCEPTED <==> |code| >= MinCodeLength && !storeFault && Taken(old(links), ShortCode, code)
      ensures status != ACCEPTED ==> links == old(links)
      ensures status == ACCEPTED ==>
        && FindFirst(old(links), ShortCode, code).Some?
        && links == Removed(old(links), FindFirst(old(links), ShortCode, code).value)
      ensures Unique(old(links), ShortCode) ==> Unique(links, ShortCode)
      ensures Unique(old(links), OriginalURL) ==> Unique(links, OriginalURL)
      ensures status == ACCEPTED && Unique(old(links), ShortCode) ==> !Taken(links, ShortCode, code)
    {
      if code == "" || |code| < MinCodeLength {
        return BAD_REQUEST;
      }
      if storeFault {
        return INTERNAL_SERVER_ERROR;
      }
      var found := FindFirst(links, ShortCode, code);
      if found.None? {
        return NOT_FOUND;
      }
      var i := found.value;
      if Unique(links, ShortCode) {
        RemovedKeepsUnique(links, i, ShortCode);
        RemovedFreesKey(links, i, ShortCode);
      }
      if Unique(links, OriginalURL) {
        RemovedKeepsUnique(links, i, OriginalURL);
      }
      links := Removed(links, i);
      return ACCEPTED;
    }

    /** GET /__redirect/:code: counts the click and sends the visitor to the
        stored original URL (Express answers `res.redirect` with 302). */
    method Redirect(code: string, storeFault: bool) returns (status: int, location: Option<string>)
      modifies this
      ensures |code| < MinCodeLength ==> status == BAD_REQUEST
      ensures |code| >= MinCodeLength && storeFault ==> status == INTERNAL_SERVER_ERROR
      ensures |code| >= MinCodeLength && !storeFault && !Taken(old(links), ShortCode, code)
        ==> status == NOT_FOUND
      ensures status == FOUND <==> |code| >= MinCodeLength && !storeFault && Taken(old(links), ShortCode, code)
      ensures status != FOUND ==> location == None && links == old(links)
      ensures status == FOUND ==>
        && FindFirst(old(links), ShortCode, code).Some?
        && var i := FindFirst(old(links), ShortCode, code).value;
        && location == Some(old(links)[i].originalURL)
        && |links| == |old(links)|
        && (forall j :: 0 <= j < |links| && j != i ==> links[j] == old(links)[j])
        && links[i] == old(links)[i].(clicks := old(links)[i].clicks + 1)
      ensures Unique(old(links), ShortCode) ==> Unique(links, ShortCode)
      ensures Unique(old(links), OriginalURL) ==> Unique(links, OriginalURL)
    {
      if code == "" || |code| < MinCodeLength {
        return BAD_REQUEST, None;
      }
      if storeFault {
        return INTERNAL_SERVER_ERROR, None;
      }
      var found := FindFirst(links, ShortCode, code);
      if found.None? {
        return NOT_FOUND, None;
      }
      var i := found.value;
      var bumped := links[i].(clicks := links[i].clicks + 1);
      if Unique(links, ShortCode) {
        ReplacedKeepsUnique(links, i, bumped, ShortCode);
      }
      if Unique(links, OriginalURL) {
        ReplacedKeepsUnique(links, i, bumped, OriginalURL);
      }
      location := Some(links[i].originalURL);
      links := links[i := bumped];
      return FOUND, location;
    }
  }
}

=== FILE: scenarios.dfy ===
/** Request sequences checked against the contracts of the writing
    handlers and the definitions of the read-only ones: the
    life of one link, and two places where the handlers themselves never
    look for a duplicate: a generated code, and the new URL of an edit.
    The table has no unique constraints, so these sequences show what the
    handlers' own checks let through, not what a store with such
    constraints would answer. */
module Scenarios {
  import opened Wrappers
  import opened Generator
  import opened Schema
  import opened LinkStore
  import opened Routes

  /** Create a link without a custom code, ask whether its code is free,
      follow it once and read it back: 201, the generated code, taken, a
      redirect to the original URL, and one click. */
  method LinkLifecycle(body: Option<CreateFields>, req: RequestContext, draws: seq<nat>)
    returns (created: int, code: string, available: Option<bool>, redirected: int,
             location: Option<string>, clicks: Option<nat>, got: Option<Link>)
    requires CreateAccepts(body) && !IsGiven(body.value.customCode)
    requires IsDrawing(draws)
    ensures created == CREATED && code == GenerateShortcode(draws)
    ensures available == Some(false)
    ensures redirected == FOUND && location == Some(body.value.url)
    ensures clicks == Some(1)
    ensures got.Some? && got.value.originalURL == body.value.url
    ensures got.value.ownerEmail == body.value.email && got.value.secret == body.value.secret
  {
    var table, link;
    created, table, link := CreateOnEmptyTable(body, req, draws);
    code := link.shortCode;
    assert table.links[0] == link;
    assert Taken(table.links, ShortCode, code);
    available := table.Availability(code, false).data;
    redirected, location := FollowOnlyLink(table, link);
    assert table.links[0] == link.(clicks := 1);
    var reply := table.Get(code, false);
    assert reply.data == Some(link.(clicks := 1));
    got := reply.data;
    clicks := Some(got.value.clicks);
  }

  /** The first step of `LinkLifecycle`: a create without a custom code on
      a fresh, empty table stores exactly the record built from the body. */
  method CreateOnEmptyTable(body: Option<CreateFields>, req: RequestContext, draws: seq<nat>)
    returns (created: int, table: Shortener, link: Link)
    requires CreateAccepts(body) && !IsGiven(body.value.customCode)
    requires IsDrawing(draws)
    ensures fresh(table) && created == CREATED && table.links == [link]
    ensures link.shortCode == GenerateShortcode(draws) && |link.shortCode| == CodeLength
    ensures link.originalURL == body.value.url && link.ownerEmail == body.value.email
    ensures link.secret == body.value.secret && link.clicks == 0
  {
    table := new Shortener();
    var record;
    created, record := table.Create(body, req, draws, false);
    link := record.value;
  }

  /** The redirect step of `LinkLifecycle`: following the code of the only
      record sends the client to its URL and counts one click. */
  method FollowOnlyLink(table: Shortener, link: Link) returns (status: int, location: Option<string>)
    requires table.links == [link] && |link.shortCode| >= MinCodeLength
    modifies table
    ensures status == FOUND && location == Some(link.originalURL)
    ensures table.links == [link.(clicks := link.clicks + 1)]
  {
    assert table.links[0] == link;
    assert FindFirst(table.links, ShortCode, link.shortCode) == Some(0);
    status, location := table.Redirect(link.shortCode, false);
    assert |table.links| == 1;
  }

  /** On any table with unique codes, a successful create followed by a
      read of the new code gives back the record just stored: 202, the
      body's URL, email and secret, and no clicks yet. The new code must be
      fresh: when a generated code repeats an existing one, this table,
      which has no unique constraint on `shortCode`, takes the insert and a
      read then finds the older record, whereas a store with the constraint
      throws on the insert and the create answers 500. */
  method CreateThenGet(table: Shortener, body: Option<CreateFields>, req: RequestContext, draws: seq<nat>)
    returns (created: int, got: Reply<Link>)
    requires IsDrawing(draws) && CreateAccepts(body)
    requires Unique(table.links, ShortCode)
    requires !Taken(table.links, OriginalURL, body.value.url)
    requires !Taken(table.links, ShortCode, ChosenCode(body.value.customCode, GenerateShortcode(draws)))
    modifies table
    ensures created == CREATED
    ensures got.status == ACCEPTED && got.data.Some?
    ensures got.data.value.shortCode == ChosenCode(body.value.customCode, GenerateShortcode(draws))
    ensures got.data.value.originalURL == body.value.url
    ensures got.data.value.ownerEmail == body.value.email
    ensures got.data.value.secret == body.value.secret
    ensures got.data.value.clicks == 0
  {
    ghost var before := table.links;
    var record;
    created, record := table.Create(body, req, draws, false);
    var link := record.value;
    var code := link.shortCode;
    assert |code| == CodeLength;
    AppendFreshKeepsUnique(before, link, ShortCode);
    assert table.links == before + [link];
    assert table.links[|before|] == link;
    assert Taken(table.links, ShortCode, code);
    got := table.Get(code, false);
  }

  /** The create handler stores a generated code without looking it up:
      when the oracle repeats an existing custom code, nothing in the
      handler stops the second create, and in this table, which has no
      unique constraint on `shortCode`, it succeeds and two records share a
      code. A store that enforces the constraint throws on the insert, and
      the handler then answers 500. */
  method GeneratedCodeCollides(first: Option<CreateFields>, second: Option<CreateFields>,
                               req: RequestContext, draws: seq<nat>)
    returns (firstStatus: int, secondStatus: int, codesUnique: bool)
    requires IsDrawing(draws)
    requires CreateAccepts(first) && first.value.customCode == Some(GenerateShortcode(draws))
    requires CreateAccepts(second) && !IsGiven(second.value.customCode)
    requires first.value.url != second.value.url
    ensures firstStatus == CREATED && secondStatus == CREATED
    ensures !codesUnique
  {
    var table := new Shortener();
    var r1, r2;
    firstStatus, r1 := table.Create(first, req, draws, false);
    assert table.links == [r1.value];
    secondStatus, r2 := table.Create(second, req, draws, false);
    assert table.links == [r1.value, r2.value];
    codesUnique := Unique(table.links, ShortCode);
    assert Key(table.links[0], ShortCode) == Key(table.links[1], ShortCode);
  }

  /** Edit checks neither the stored secret nor the new URL: a request
      with any secret moves one link onto the other's URL. Whether the
      store has a unique constraint on `originalURL`, which would turn this
      edit into a 500, is not visible in the handlers. */
  method EditDuplicatesURL(first: Option<CreateFields>, second: Option<CreateFields>,
                           update: Option<CreateFields>, req: RequestContext, draws: seq<nat>)
    returns (editStatus: int, urlsUnique: bool)
    requires IsDrawing(draws)
    requires CreateAccepts(first) && IsGiven(first.value.customCode)
    requires CreateAccepts(second) && IsGiven(second.value.customCode)
    requires first.value.customCode != second.value.customCode
    requires first.value.url != second.value.url
    requires CreateAccepts(update) && update.value.url == first.value.url
    ensures editStatus == ACCEPTED
    ensures !urlsUnique
  {
    var table := new Shortener();
    var s1, r1 := table.Create(first, req, draws, false);
    assert table.links == [r1.value];
    var s2, r2 := table.Create(second, req, draws, false);
    assert table.links == [r1.value, r2.value];
    var code := second.value.customCode.value;
    assert FindFirst(table.links, ShortCode, code) == Some(1);
    editStatus := table.Edit(code, update, false);
    urlsUnique := Unique(table.links, OriginalURL);
    assert Key(table.links[0], OriginalURL) == Key(table.links[1], OriginalURL);
  }
}

=== FILE: schema.dfy ===
/** Request validation (src/schema/index.ts): the zod schemas
    `createURLSchema` and `validateOwnerSchema`, as predicates.

    The WHATWG URL parser and zod's email check are foreign code: the
    model receives what the parser made of the `url` field and the email
    check's verdict as inputs. */
module Schema {
  import opened Wrappers

  /** The parts of a parsed URL that the refine callback looks at:
      `u.protocol`, `u.hostname` and `u.port`. */
  datatype ParsedURL = ParsedURL(protocol: string, hostname: string, port: string)

  /** A create or update body whose fields have the expected JSON types.
      `url`, `email`, `secret` and `customCode` are the values zod hands
      back in `data`, which the handlers look up and store; any rewriting
      of them by zod's own checks happens before this model sees them.
      `parsed` is the URL parser's result for `url` (None when it throws);
      `emailWellFormed` is what zod's email check says about `email`;
      `customCode` is None when the field is absent. */
  datatype CreateFields = CreateFields(
    url: string,
    parsed: Option<ParsedURL>,
    email: string,
    emailWellFormed: bool,
    secret: string,
    customCode: Option<string>)

  /** The length the `customCode` refine asks for. */
  const CustomCodeLength: nat := 10

  /** `z.string().min(6)` on `secret`. */
  const MinSecretLength: nat := 6

  // ---------------------------------------------------------------------
  // The string operations the URL refine uses
  // ---------------------------------------------------------------------

  /** `s.endsWith(c)` for a one-character suffix. */
  predicate EndsWith(s: string, c: char)
  {
    |s| > 0 && s[|s| - 1] == c
  }

  /** `s.split(sep)` for a one-character separator: the pieces between the
      separators, empty pieces included. */
  function Split(s: string, sep: char): (parts: seq<string>)
    ensures |parts| >= 1
    ensures sep in s <==> |parts| >= 2
    ensures forall k :: 0 <= k < |parts| ==> sep !in parts[k]
  {
    if s == [] then [[]]
    else
      var rest := Split(s[1..], sep);
      assert sep in s <==> s[0] == sep || sep in s[1..] by {
        assert s == [s[0]] + s[1..];
      }
      if s[0] == sep then [[]] + rest
      else [[s[0]] + rest[0]] + rest[1..]
  }

  /** The pieces glued back together with the separator between them. */
  function Join(parts: seq<string>, sep: char): (s: string)
  {
    if parts == [] then []
    else if |parts| == 1 then parts[0]
    else parts[0] + [sep] + Join(parts[1..], sep)
  }

  /** Splitting loses nothing: joining the pieces gives the string back. */
  lemma {:induction false} JoinSplit(s: string, sep: char)
    ensures Join(Split(s, sep), sep) == s
  {
    if s != [] {
      var rest := Split(s[1..], sep);
      JoinSplit(s[1..], sep);
      if s[0] == sep {
        assert ([[]] + rest)[1..] == rest;
      } else if |rest| == 1 {
      } else {
        assert ([[s[0]] + rest[0]] + rest[1..])[1..] == rest[1..];
      }
    }
  }

  /** A string without the separator is a single piece. */
  lemma {:induction false} SplitWithoutSeparator(a: string, sep: char)
    requires sep !in a
    ensures Split(a, sep) == [a]
  {
    if a != [] {
      SplitWithoutSeparator(a[1..], sep);
      assert [a[0]] + a[1..] == a;
    }
  }

  /** Splitting at the first separator: the piece before it comes first. */
  lemma {:induction false} SplitAtFirst(a: string, b: string, sep: char)
    requires sep !in a
    ensures Split(a + [sep] + b, sep) == [a] + Split(b, sep)
  {
    var s := a + [sep] + b;
    if a == [] {
      assert s[1..] == b;
    } else {
      assert s[1..] == a[1..] + [sep] + b;
      SplitAtFirst(a[1..], b, sep);
      assert [a[0]] + a[1..] == a;
    }
  }

  /** Pieces without the separator are what splitting their join gives. */
  lemma {:induction false} SplitJoin(parts: seq<string>, sep: char)
    requires |parts| >= 1
    requires forall k :: 0 <= k < |parts| ==> sep !in parts[k]
    ensures Split(Join(parts, sep), sep) == parts
  {
    if |parts| == 1 {
      SplitWithoutSeparator(parts[0], sep);
    } else {
      SplitJoin(parts[1..], sep);
      SplitAtFirst(parts[0], Join(parts[1..], sep), sep);
      assert [parts[0]] + parts[1..] == parts;
    }
  }

  /** `hostname.split(".")[1]`: the label after the FIRST dot, which is the
      last label only when the hostname has exactly one dot. */
  function LabelAfterFirstDot(h: string): (second: string)
    requires '.' in h
    ensures '.' !in second
  {
    Split(h, '.')[1]
  }

  /** The label after the first dot runs up to the second dot or the end. */
  lemma LabelAfterFirstDotIs(first: string, middle: string, rest: string)
    requires '.' !in first && '.' !in middle
    requires rest == [] || rest[0] == '.'
    ensures '.' in first + "." + middle + rest
    ensures LabelAfterFirstDot(first + "." + middle + rest) == middle
  {
    var h := first + "." + middle + rest;
    assert h == first + ['.'] + (middle + rest);
    assert h[|first|] == '.';
    SplitAtFirst(first, middle + rest, '.');
    if rest == [] {
      assert middle + rest == middle;
      SplitWithoutSeparator(middle, '.');
    } else {
      assert middle + rest == middle + ['.'] + rest[1..];
      SplitAtFirst(middle, rest[1..], '.');
    }
  }

  // ---------------------------------------------------------------------
  // The `url` refine
  // ---------------------------------------------------------------------

  /** The three hostnames the refine treats as loopback. */
  predicate IsLoopbackHost(h: string)
  {
    h == "localhost" || h == "127.0.0.1" || h == "::1"
  }

  /** The domain branch: a dot, no trailing dot, and at least two
      characters after the first dot. */
  predicate IsDomainHost(h: string)
  {
    '.' in h && !EndsWith(h, '.') && |LabelAfterFirstDot(h)| >= 2
  }

  predicate IsWebProtocol(protocol: string)
  {
    protocol == "http:" || protocol == "https:"
  }

  /** The condition of the `if` inside the refine callback. */
  predicate UrlCondition(u: ParsedURL)
  {
    && (|| IsDomainHost(u.hostname)
        || (IsLoopbackHost(u.hostname) && !EndsWith(u.hostname, ':') && |u.port| > 0))
    && IsWebProtocol(u.protocol)
  }

  /** What the refine callback returns: Some(true) from `return true`,
      Some(false) from the catch branch (the URL constructor threw), and
      None when it runs off the end and yields `undefined`. */
  function UrlRefine(parsed: Option<ParsedURL>): (r: Option<bool>)
    ensures r == Some(false) <==> parsed.None?
    ensures r == None <==> parsed.Some? && !UrlCondition(parsed.value)
  {
    match parsed
    case None => Some(false)
    case Some(u) => if UrlCondition(u) then Some(true) else None
  }

  /** zod keeps a value whose refine result is truthy. */
  predicate Truthy(r: Option<bool>)
  {
    r == Some(true)
  }

  predicate UrlAccepted(parsed: Option<ParsedURL>)
  {
    Truthy(UrlRefine(parsed))
  }

  /** The `undefined` fall-through rejects just as `false` does, so
      acceptance is exactly the callback's condition. */
  lemma UrlAcceptedIsCondition(parsed: Option<ParsedURL>)
    ensures UrlAccepted(parsed) <==> parsed.Some? && UrlCondition(parsed.value)
  {
  }

  /** Only http and https URLs are accepted. */
  lemma AcceptedUrlIsWeb(parsed: Option<ParsedURL>)
    requires UrlAccepted(parsed)
    ensures parsed.Some? && IsWebProtocol(parsed.value.protocol)
  {
  }

  /** A host that is not one of the loopback names is accepted exactly when
      it has a dot, does not end in a dot, and the label after its first
      dot has at least two characters. */
  lemma DomainHostRule(u: ParsedURL)
    requires !IsLoopbackHost(u.hostname)
    ensures UrlAccepted(Some(u)) <==>
      && IsWebProtocol(u.protocol)
      && '.' in u.hostname
      && !EndsWith(u.hostname, '.')
      && |LabelAfterFirstDot(u.hostname)| >= 2
  {
  }

  /** A loopback name is accepted exactly when a port is given; the
      `endsWith(":")` test can never reject one of them. */
  lemma LoopbackHostRule(u: ParsedURL)
    requires IsLoopbackHost(u.hostname)
    ensures !EndsWith(u.hostname, ':')
    ensures UrlAccepted(Some(u)) <==> IsWebProtocol(u.protocol) && |u.port| > 0
  {
    assert '.' !in "localhost";
    assert '.' !in "::1";
    LabelAfterFirstDotIs("127", "0", ".0.1");
    assert "127" + "." + "0" + ".0.1" == "127.0.0.1";
    assert !IsDomainHost(u.hostname);
  }

  /** The usual `name.tld` host, with a top-level label of two or more
      characters, is accepted over http and https with or without a port. */
  lemma NameDotTopLevelAccepted(protocol: string, name: string, tld: string, port: string)
    requires IsWebProtocol(protocol)
    requires '.' !in name && '.' !in tld && |tld| >= 2
    ensures UrlAccepted(Some(ParsedURL(protocol, name + "." + tld, port)))
  {
    var h := name + "." + tld;
    LabelAfterFirstDotIs(name, tld, "");
    assert h == name + "." + tld + "";
    assert h[|h| - 1] == tld[|tld| - 1];
    assert IsDomainHost(h);
  }

  /** The two-character test is on the label after the first dot, not on
      the last label: `www.example.c` passes although its last label is a
      single character. */
  lemma ShortLastLabelAccepted()
    ensures UrlAccepted(Some(ParsedURL("https:", "www.example.c", "")))
  {
    var h := "www.example.c";
    assert h == "www" + "." + "example" + ".c";
    LabelAfterFirstDotIs("www", "example", ".c");
    assert !EndsWith(h, '.');
    assert IsDomainHost(h);
  }

  /** ... and `a.b.com` fails although its last label has three characters. */
  lemma ShortMiddleLabelRejected()
    ensures !UrlAccepted(Some(ParsedURL("https:", "a.b.com", "")))
  {
  }

  // ---------------------------------------------------------------------
  // `customCode`, `secret` and the two schemas
  // ---------------------------------------------------------------------

  /** The `customCode` refine callback, with its `else if` branch. */
  function CustomCodeRefine(val: string): (r: Option<bool>)
    ensures r.Some?
    ensures Truthy(r) <==> |val| == 0 || |val| == CustomCodeLength
  {
    if |val| == 0 || |val| == CustomCodeLength then Some(true)
    else if |val| > CustomCodeLength || |val| < CustomCodeLength then Some(false)
    else None
  }

  /** `customCode` is optional; when present its refine must pass. */
  predicate CustomCodeAccepted(customCode: Option<string>)
  {
    customCode.None? || Truthy(CustomCodeRefine(customCode.value))
  }

  predicate SecretAccepted(secret: string)
  {
    |secret| >= MinSecretLength
  }

  /** `createURLSchema.safeParse(body).success`, where None stands for a
      body that is not an object with string fields `url`, `email` and
      `secret` (and, if present, a string `customCode`). */
  predicate CreateAccepts(body: Option<CreateFields>)
  {
    && body.Some?
    && UrlAccepted(body.value.parsed)
    && body.value.emailWellFormed
    && CustomCodeAccepted(body.value.customCode)
    && SecretAccepted(body.value.secret)
  }

  /** The create and update schema, field by field. */
  lemma CreateAcceptsExactly(body: Option<CreateFields>)
    ensures CreateAccepts(body) <==>
      && body.Some?
      && body.value.parsed.Some? && UrlCondition(body.value.parsed.value)
      && body.value.emailWellFormed
      && (body.value.customCode.None?
          || |body.value.customCode.value| == 0
          || |body.value.customCode.value| == CustomCodeLength)
      && |body.value.secret| >= MinSecretLength
  {
  }

  /** `validateOwnerSchema.safeParse(body).success`: the body's `secret`
      field, None when it is missing or not a string. */
  predicate OwnerAccepts(secret: Option<string>)
  {
    secret.Some?
  }

  /** Any string secret passes the owner schema, the empty one included. */
  lemma OwnerAcceptsAnyString(s: string)
    ensures OwnerAccepts(Some(s))
  {
  }
}

=== FILE: wrappers.dfy ===
/** The optional value used throughout the model: an absent JSON field,
    a lookup that finds nothing, a response without a body. */
module Wrappers {
  datatype Option<T> = None | Some(value: T)
}
